=== FILE: README.md ===
# Daily news briefing: a Dafny model of the newsletter pipeline

`app.py` is a batch job that runs once per call. It fetches recent articles for a list of topics from a news-search service. It asks a chat-completion service to summarize the first five of them. It writes a plain-text newsletter and mails it to one recipient. This project models the logic between those service calls:

- the per-topic fetch loop (`fetch_news`);
- the choice and truncation of the text to summarize, the stripping of the reply, and the fallback summary (`summarize_article`);
- the newsletter layout and its five-article cap (`create_newsletter`);
- the message headers, the dated subject line and the order of the SMTP session (`send_email`).

Each external service is an oracle, passed in as a function parameter. It receives the call number and the request, and returns `Ok(answer)` or `Err(message)`, where `Err` stands for any exception the client library raises. Because the call number is an argument, the service may answer two identical requests differently. `FetchNews`, `Compose`, `CreateNewsletter` and `SendEmail` also return the requests or session steps they issued, in order. This is how the model states "one request per topic" and "one summarizer call per shown article". `Summary`, the model of `summarize_article`, returns only the summary string; the request it sends is `SummaryRequest(article)`, and `Compose` logs it. The current date and time are string parameters (`fromDate`, `timestamp`, `date`), formatted by the caller.

Modules, one per component:

- `Wrappers`: `Option` (a JSON null) and `Result` (a service outcome).
- `Articles`: the article record and Python truthiness of an optional string.
- `Fetch`: `FetchNews` and the reference definition `Collected`, which concatenates the articles of the successful outcomes in topic order.
- `Summarize`: body selection (`Body`), the 1000-character cut (`Take`, `SentBody`), the request (`SummaryRequest`), Python's `str.strip` (`Strip`, with its whitespace set taken from `str.isspace`), the fallback and its inverse, and `Summary`.
- `Newsletter`: the header and its inverse, the block format, the cap (`Shown`), the reference text `Text`, and the loop `Compose` that builds it.
- `Mail`: the subject line and its inverse, `BuildMessage`, and the session `SendEmail`.
- `Scenarios`: end-to-end runs with fixed service answers.

Notes on the source:

- Line 97 carries the comment "Limit to 10", but the slice is `articles[:5]`. The model follows the code: `MaxArticles` is 5.
- The banner's emoji is U+1F5DE followed by U+FE0F, on both sides. The block marker is U+1F4F0 followed by a space.
- Python measures and slices strings in code points. Dafny's `char` is a Unicode scalar value, so for text made of Unicode scalar values `Take(body, 1000)` cuts where `content[:1000]` cuts.
- A search response without an `'articles'` key makes line 52 raise inside the `try`. In the model, such a response is an `Err` from the oracle, so the topic adds nothing.
- A reply whose message content is `None` makes `.strip()` raise, and the `except` turns that into the fallback. In the model, such a reply is an `Err` from the oracle.

## Model

| member | source | states |
|---|---|---|
| Fetch.FetchNews | app.py:28-56 | one request per topic, in topic order, each with the topic as query, language "en", sort "publishedAt", the given date bound and page size, whatever earlier requests returned; the result is the concatenation, in topic order, of the article lists of the successful requests; no precondition and no error result |
| Fetch.Collected | app.py:41-52 | reference definition of the fetched list: the article lists of the successful outcomes, concatenated in outcome order, with a failed outcome contributing nothing; its length is the sum of the sizes of the successful responses |
| Fetch.CollectedAppend | app.py:41-52 | the result over two runs of topics is the result of the first followed by that of the second |
| Fetch.CollectedAt | app.py:41-56 | topic `i` contributes exactly its own articles, after those of all earlier topics and before those of all later ones |
| Fetch.FailedTopicAddsNothing | app.py:53-54 | removing a failed topic's outcome leaves the fetched list unchanged |
| Fetch.AllFailedFetchesNothing | app.py:41-56 | when every request fails the result is empty |
| Fetch.CollectedMembers | app.py:52 | an article is fetched if and only if some successful response contains it |
| Fetch.CollectedCount | app.py:52 | the number of articles fetched is the sum of the sizes of the successful responses |
| Summarize.Body | app.py:67 | the body is the description when it is truthy, else the content when that is truthy, and it is empty exactly when neither is truthy (`None` and `''` both count as missing) |
| Summarize.Take | app.py:73 | `s[:n]` is a prefix of `s` whose length is the smaller of `n` and the length of `s`, and it is all of `s` when `s` has at most `n` characters |
| Summarize.SentBody | app.py:67-73 | the text sent is a prefix of the body, at most 1000 characters long: the whole body when the body has at most 1000 characters, and exactly its first 1000 characters otherwise |
| Summarize.SummaryRequest | app.py:69-76 | the request uses model gpt-3.5-turbo, the fixed system instruction and 150 max tokens; the prompt starts with the fixed lead asking for 3-4 sentences, then the title, then the fixed "Content:" label, then the sent body, and is at most 1000 characters longer than its fixed parts and the title |
| Summarize.Strip | app.py:78 | the stripped reply is a slice of the reply; everything before and after the slice is whitespace; the slice neither starts nor ends with whitespace |
| Summarize.StripUnique | app.py:78 | any slice that meets that description is the one `Strip` returns, so the description pins down `str.strip` |
| Summarize.StripKeepsTrimmed | app.py:78 | a reply with no whitespace at either end is returned unchanged |
| Summarize.StripIdempotent | app.py:78 | stripping twice is the same as stripping once |
| Summarize.Fallback | app.py:81 | the fallback is the fixed lead "Summary unavailable. Original title: " followed by the title, verbatim, and nothing else |
| Summarize.FallbackRoundTrip | app.py:81 | the title can be read back exactly from the fallback summary |
| Summarize.FallbackInjective | app.py:81 | different titles give different fallback summaries |
| Summarize.Summary | app.py:58-81 | when the service fails, the result is the fallback lead followed by the title verbatim; when it answers, the result is the stripped answer; no precondition and no error result |
| Newsletter.Header | app.py:94-95 | the newsletter opens with the banner, followed by "Generated on: ", the timestamp and a blank line |
| Newsletter.HeaderRoundTrip | app.py:94-95 | the timestamp can be read back exactly from the header |
| Newsletter.HeaderInjective | app.py:94-95 | different timestamps give different headers |
| Newsletter.Block | app.py:99 | a block opens with the U+1F4F0 marker, closes with a blank line, and is three characters longer than the marker, title and summary together (the title's newline and the closing blank line) |
| Newsletter.BlockFields | app.py:99 | a block is the marker, the title, a newline, the summary and a blank line; given the title's length, the title and the summary sit at fixed positions in it |
| Newsletter.Shown | app.py:97 | the articles shown are a prefix of the fetched list, holding the first five articles, or all of them when there are fewer |
| Newsletter.Blocks | app.py:97-99 | there is one block per shown article; block `i` holds article `i`'s title and the summary from the `i`-th summarizer call |
| Newsletter.RequestsAt | app.py:97-98 | the summarizer is called exactly once for each shown article, in order, with that article's request |
| Newsletter.RenderedIsJoin | app.py:97-99 | the text the loop builds after the header is exactly the block list, joined in order |
| Newsletter.Compose | app.py:93-101 | the text starts with the header and equals the reference newsletter; one summarizer request is issued per shown article (the first five, or all when fewer), request `i` for article `i`, and none for later articles |
| Newsletter.CreateNewsletter | app.py:83-101 | fetches with the default page size 5, one request per topic, and returns the reference newsletter of the fetched list; it requests one summary per shown fetched article (the first five, or all when fewer), request `i` for fetched article `i` |
| Newsletter.Text | app.py:93-99 | reference definition of the newsletter for a fetched list: it always opens with the header, and with no articles it is the header alone |
| Newsletter.TextBlocks | app.py:94-99 | the newsletter is the header followed by one block per shown article (the first five, or all when fewer), block `i` for article `i` |
| Newsletter.EmptyNewsletter | app.py:94-97 | with no articles the newsletter is the header alone |
| Newsletter.BlockInPlace | app.py:97-99 | block `i` appears right after the header and blocks `0..i-1`, so blocks keep fetch order |
| Newsletter.TailIgnored | app.py:97 | once five articles are fetched, further articles do not change the newsletter |
| Newsletter.FewAllShown | app.py:97 | with fewer than five articles, every article is shown |
| Newsletter.OnlyShownSummarized | app.py:97-98 | the newsletter depends on the summarizer only through its answers for the shown articles |
| Mail.Subject | app.py:114 | the subject is "Daily News Briefing - " followed by the date |
| Mail.SubjectRoundTrip | app.py:114 | the date can be read back exactly from the subject |
| Mail.SubjectOfIsoDate | app.py:114 | for a `YYYY-MM-DD` date the subject is 32 characters and its last 10 characters are that date |
| Mail.BuildMessage | app.py:111-117 | the message carries the configured sender and recipient, a subject holding the given date, and the newsletter as its body |
| Mail.SessionSteps | app.py:120-123 | the session connects to the configured server and port, upgrades to TLS, logs in with the sender's address and password, then sends the message from the sender to the recipient, in that order |
| Mail.SendEmail | app.py:103-127 | the steps attempted are a prefix of the session; each step before the last attempted one succeeded; the message is delivered if and only if all four steps succeed, and a delivered message went through the configured server, with the sender's credentials, from the sender to the recipient; on failure the failing step is the last one attempted and nothing is raised |
| Scenarios.TwoArticlesInOrder | app.py:83-101 | one topic, two fetched articles and summaries "S1" and "S2": the newsletter is the header followed by both blocks, in fetch order |
| Scenarios.AllSearchesFail | app.py:41-101 | when every search fails, the newsletter is the header alone |
| Scenarios.AllSummariesFail | app.py:79-99 | when every summarization fails, each shown article's block carries its fallback summary |

## Left out

- The news-search, chat-completion and SMTP clients (app.py:18-19, 44-50, 69-76, 120-123). They are foreign network code. Each is an oracle from call number and request to `Result`.
- MIME construction and serialization (app.py:111, 117). This is library code. `Message` keeps only the headers and the plain-text body.
- The `.env` and environment loading, including the `int(os.getenv('SMTP_PORT'))` parse (app.py:11-13, 22-26). This is configuration input, modelled as the `MailConfig` record.
- `datetime.now()`, `timedelta` and `strftime` (app.py:39, 95, 114). These are the clock. The formatted strings are parameters, and `IsIsoDate` only describes the expected date shape.
- The `print` diagnostics (app.py:54, 80, 125, 127). They are logging only. The `Err` message is kept but never used.
- `main` (app.py:129-141). It is fixed sequencing: `CreateNewsletter` then `SendEmail`, with the topic list as a parameter.
- Malformed articles. Articles are well-formed records here, so the `KeyError` that `summarize_article` raises for a missing key is not modelled. For a missing `'title'`, the fallback would raise again and the error would escape.
- Article titles are strings here. A null title, which the f-strings would print as `None`, is not modelled.
- Newsletter.BlockFields: a title containing a newline makes a block ambiguous on its own (the blocks for title "a\nb" with summary "c" and for title "a" with summary "b\nc" are the same text), so the title and summary are located only given the title's length.
- Lone surrogates in article text. Python strings decoded from JSON can hold an unpaired surrogate such as `\ud83d`, which is not a Unicode scalar value and so not a Dafny `char`; the model covers only text made of scalar values.
- The `quit` sent when the `with` block closes the SMTP connection. It has no effect on whether the message is handed over; an unexpected reply only makes the `except` print its error line instead of the success line, and printing is not modelled.


=== FILE: Articles.dfy ===
/** The article record NewsAPI returns and the Python notion of a "truthy"
    optional string, which the summarizer's body selection relies on. */
module Articles {
  import opened Wrappers

  /** One article of a news-search response. `description` and `content`
      may be null in the service's JSON, hence `Option`. */
  datatype Article = Article(
    title: string,
    description: Option<string>,
    content: Option<string>,
    publishedAt: string)

  /** Python truthiness of an optional string: `None` and `''` are falsy,
      every other string is truthy. */
  predicate Truthy(o: Option<string>)
  {
    o.Some? && o.value != ""
  }
}

=== FILE: Fetch.dfy ===
/** Article fetching (`NewsletterGenerator.fetch_news`): one news-search
    request per topic, in topic order; the articles of the requests that
    succeed are concatenated, and a request that fails contributes nothing
    and does not stop the loop. */
module Fetch {
  import opened Wrappers
  import opened Articles

  /** `num_articles` when the caller gives none. */
  const DefaultPageSize: int := 5
  const Language: string := "en"
  const SortBy: string := "publishedAt"

  /** The arguments of one `get_everything` call. */
  datatype SearchRequest = SearchRequest(
    query: string,
    fromDate: string,
    language: string,
    sortBy: string,
    pageSize: int)

  /** The news-search service, as an oracle: its answer to the call with
      number `i` (counting from 0) made with request `req`. The call number
      lets the service answer two identical requests differently. */
  type SearchService = (nat, SearchRequest) -> Result<seq<Article>>

  /** The request issued for one topic. */
  function RequestFor(topic: string, fromDate: string, pageSize: int): SearchRequest
  {
    SearchRequest(topic, fromDate, Language, SortBy, pageSize)
  }

  /** What one outcome adds to the result: its articles, or nothing. */
  function Gained(o: Result<seq<Article>>): seq<Article>
  {
    match o
    case Ok(articles) => articles
    case Err(_) => []
  }

  /** Reference definition of the result: the articles of the successful
      outcomes, concatenated in outcome order. */
  function Collected(outcomes: seq<Result<seq<Article>>>): (r: seq<Article>)
    ensures |r| == GainedCount(outcomes)
  {
    if |outcomes| == 0 then []
    else Collected(outcomes[..|outcomes| - 1]) + Gained(outcomes[|outcomes| - 1])
  }

  /** The outcomes the service gives, call by call, to the requests for
      `topics`. */
  function Outcomes(topics: seq<string>, fromDate: string, pageSize: int,
                    search: SearchService): (os: seq<Result<seq<Article>>>)
    ensures |os| == |topics|
    ensures forall i :: 0 <= i < |topics| ==>
      os[i] == search(i, RequestFor(topics[i], fromDate, pageSize))
  {
    seq(|topics|, i requires 0 <= i < |topics| =>
      search(i, RequestFor(topics[i], fromDate, pageSize)))
  }

  /** `fetch_news(topics, num_articles)` with the date bound `fromDate`
      computed by the caller. Returns the requests issued, in order, and the
      collected articles. It has no precondition and no error result: a
      failing request is absorbed. */
  method FetchNews(topics: seq<string>, pageSize: int, fromDate: string,
                   search: SearchService)
    returns (requests: seq<SearchRequest>, articles: seq<Article>)
    ensures |requests| == |topics|
    ensures forall i :: 0 <= i < |requests| ==>
      && requests[i].query == topics[i]
      && requests[i].fromDate == fromDate
      && requests[i].language == "en"
      && requests[i].sortBy == "publishedAt"
      && requests[i].pageSize == pageSize
    ensures articles == Collected(seq(|requests|, i requires 0 <= i < |requests| =>
                                        search(i, requests[i])))
  {
    requests := [];
    articles := [];
    var answers: seq<Result<seq<Article>>> := [];
    for k := 0 to |topics|
      invariant |requests| == k && |answers| == k
      invariant forall i :: 0 <= i < k ==> requests[i] == RequestFor(topics[i], fromDate, pageSize)
      invariant forall i :: 0 <= i < k ==> answers[i] == search(i, requests[i])
      invariant articles == Collected(answers)
    {
      var req := RequestFor(topics[k], fromDate, pageSize);
      var answer := search(k, req);
      match answer {
        case Ok(found) => articles := articles + found;
        case Err(_) =>
      }
      assert (answers + [answer])[..k] == answers;
      requests := requests + [req];
      answers := answers + [answer];
    }
    assert answers == seq(|requests|, i requires 0 <= i < |requests| => search(i, requests[i]));
  }

  /** Concatenation distributes over splitting the outcome list. */
  lemma {:induction false} CollectedAppend(a: seq<Result<seq<Article>>>, b: seq<Result<seq<Article>>>)
    ensures Collected(a + b) == Collected(a) + Collected(b)
    decreases |b|
  {
    if |b| == 0 {
      assert a + b == a;
    } else {
      var last := |b| - 1;
      var ab := a + b;
      assert ab[..|ab| - 1] == a + b[..last];
      assert ab[|ab| - 1] == b[last];
      CollectedAppend(a, b[..last]);
      calc {
        Collected(ab);
        Collected(a + b[..last]) + Gained(b[last]);
        (Collected(a) + Collected(b[..last])) + Gained(b[last]);
        Collected(a) + (Collected(b[..last]) + Gained(b[last]));
        Collected(a) + Collected(b);
      }
    }
  }

  /** One more outcome adds its articles at the end. */
  lemma CollectedStep(outcomes: seq<Result<seq<Article>>>, k: nat)
    requires k < |outcomes|
    ensures Collected(outcomes[..k + 1]) == Collected(outcomes[..k]) + Gained(outcomes[k])
  {
    assert outcomes[..k + 1][..k] == outcomes[..k];
  }

  /** Outcome `i` contributes exactly its own articles, placed after those
      of every earlier outcome and before those of every later one. */
  lemma CollectedAt(outcomes: seq<Result<seq<Article>>>, i: nat)
    requires i < |outcomes|
    ensures Collected(outcomes)
         == Collected(outcomes[..i]) + Gained(outcomes[i]) + Collected(outcomes[i + 1..])
  {
    var front := outcomes[..i + 1];
    var back := outcomes[i + 1..];
    assert Collected(outcomes) == Collected(front) + Collected(back) by {
      assert outcomes == front + back;
      CollectedAppend(front, back);
    }
    CollectedStep(outcomes, i);
  }

  /** A failed topic adds nothing: dropping its outcome leaves the result
      unchanged. */
  lemma FailedTopicAddsNothing(outcomes: seq<Result<seq<Article>>>, i: nat)
    requires i < |outcomes| && outcomes[i].Err?
    ensures Collected(outcomes) == Collected(outcomes[..i] + outcomes[i + 1..])
  {
    var front := outcomes[..i];
    var back := outcomes[i + 1..];
    calc {
      Collected(outcomes);
      { CollectedAt(outcomes, i); }
      Collected(front) + Gained(outcomes[i]) + Collected(back);
      { assert Gained(outcomes[i]) == []; }
      Collected(front) + Collected(back);
      { CollectedAppend(front, back); }
      Collected(front + back);
    }
  }

  /** When every request fails, nothing is fetched. */
  lemma {:induction false} AllFailedFetchesNothing(outcomes: seq<Result<seq<Article>>>)
    requires forall i :: 0 <= i < |outcomes| ==> outcomes[i].Err?
    ensures Collected(outcomes) == []
    decreases |outcomes|
  {
    if |outcomes| > 0 {
      AllFailedFetchesNothing(outcomes[..|outcomes| - 1]);
    }
  }

  /** An article is in the result if and only if some successful outcome
      holds it. */
  lemma {:induction false} CollectedMembers(outcomes: seq<Result<seq<Article>>>, a: Article)
    ensures a in Collected(outcomes)
        <==> exists i :: 0 <= i < |outcomes| && outcomes[i].Ok? && a in outcomes[i].value
    decreases |outcomes|
  {
    if |outcomes| > 0 {
      var n := |outcomes| - 1;
      var front := outcomes[..n];
      CollectedMembers(front, a);
      if a in Collected(outcomes) {
        if a !in Collected(front) {
          assert outcomes[n].Ok? && a in outcomes[n].value;
        } else {
          var i :| 0 <= i < |front| && front[i].Ok? && a in front[i].value;
          assert outcomes[i] == front[i];
        }
      } else {
        forall i | 0 <= i < |outcomes| && outcomes[i].Ok?
          ensures a !in outcomes[i].value
        {
          if i < n {
            assert outcomes[i] == front[i];
          }
        }
      }
    }
  }

  /** The number of articles fetched is the sum of the sizes of the
      successful responses. */
  function GainedCount(outcomes: seq<Result<seq<Article>>>): nat
  {
    if |outcomes| == 0 then 0
    else GainedCount(outcomes[..|outcomes| - 1])
         + (if outcomes[|outcomes| - 1].Ok? then |outcomes[|outcomes| - 1].value| else 0)
  }

  lemma {:induction false} CollectedCount(outcomes: seq<Result<seq<Article>>>)
    ensures |Collected(outcomes)| == GainedCount(outcomes)
    decreases |outcomes|
  {
    if |outcomes| > 0 {
      CollectedCount(outcomes[..|outcomes| - 1]);
    }
  }
}

=== FILE: Mail.dfy ===
/** Delivery (`NewsletterGenerator.send_email`): the message headers, the
    dated subject line, and the order of the SMTP session's steps, which
    stops at the first failure and never lets the failure escape. */
module Mail {
  import opened Wrappers

  const SubjectLead: string := "Daily News Briefing - "

  /** The SMTP settings read from the environment at start-up. */
  datatype MailConfig = MailConfig(
    server: string,
    port: int,
    sender: string,
    password: string,
    recipient: string)

  /** The headers and plain-text body of the outgoing message. Its MIME
      serialization is not part of this model. */
  datatype Message = Message(sender: string, recipient: string, subject: string, body: string)

  predicate IsDigit(c: char)
  {
    '0' <= c <= '9'
  }

  /** A date as `strftime('%Y-%m-%d')` writes it for years 1000 to 9999:
      four digits, a dash, two digits, a dash, two digits. */
  predicate IsIsoDate(d: string)
  {
    && |d| == 10
    && IsDigit(d[0]) && IsDigit(d[1]) && IsDigit(d[2]) && IsDigit(d[3])
    && d[4] == '-'
    && IsDigit(d[5]) && IsDigit(d[6])
    && d[7] == '-'
    && IsDigit(d[8]) && IsDigit(d[9])
  }

  /** The subject line for the given formatted date. */
  function Subject(date: string): (s: string)
    ensures SubjectLead <= s
    ensures s[|SubjectLead|..] == date
  {
    SubjectLead + date
  }

  /** Reads the date back out of a subject line; `None` for a line that does
      not start with the fixed lead. */
  function SubjectDate(s: string): (d: Option<string>)
    ensures d.Some? <==> SubjectLead <= s
    ensures d.Some? ==> s == SubjectLead + d.value
  {
    if SubjectLead <= s then Some(s[|SubjectLead|..]) else None
  }

  /** The date is recovered from the subject exactly. */
  lemma SubjectRoundTrip(date: string)
    ensures SubjectDate(Subject(date)) == Some(date)
  {
    assert SubjectLead <= Subject(date);
  }

  /** For a well-formed date the subject is 32 characters and ends in that
      date. */
  lemma SubjectOfIsoDate(date: string)
    requires IsIsoDate(date)
    ensures |Subject(date)| == 32
    ensures Subject(date)[|Subject(date)| - 10..] == date
    ensures IsIsoDate(Subject(date)[|Subject(date)| - 10..])
  {
    assert Subject(date)[|Subject(date)| - 10..] == date;
  }

  /** The message `send_email` builds for the newsletter text. */
  function BuildMessage(cfg: MailConfig, content: string, date: string): (m: Message)
    ensures m.sender == cfg.sender && m.recipient == cfg.recipient
    ensures SubjectDate(m.subject) == Some(date)
    ensures m.body == content
  {
    SubjectRoundTrip(date);
    Message(cfg.sender, cfg.recipient, Subject(date), content)
  }

  /** One step of the SMTP session. */
  datatype SmtpStep =
    | Connect(host: string, port: int)
    | StartTls
    | Login(user: string, password: string)
    | SendMail(from: string, to: string, message: Message)

  /** The mail transport, as an oracle: the outcome of the `i`-th step of
      the session, `Ok` for success and `Err` for a raised exception. The
      replies the steps return are never read, so success carries no value. */
  type SmtpTransport = (nat, SmtpStep) -> Result<()>

  /** The session's steps, in the order `send_email` performs them. */
  function SessionSteps(cfg: MailConfig, m: Message): (steps: seq<SmtpStep>)
    ensures |steps| == 4
    ensures steps[0] == Connect(cfg.server, cfg.port) && steps[1].StartTls?
    ensures steps[2] == Login(cfg.sender, cfg.password)
    ensures steps[3] == SendMail(cfg.sender, cfg.recipient, m)
  {
    [ Connect(cfg.server, cfg.port),
      StartTls,
      Login(cfg.sender, cfg.password),
      SendMail(cfg.sender, cfg.recipient, m) ]
  }

  /** How a session ended: the message was handed over, or the step with
      the given index failed and the rest were skipped. */
  datatype Delivery = Delivered | Failed(at: nat)

  /** `send_email(content)`. Returns the steps attempted, in order, and how
      the session ended. It has no precondition and no error result. */
  method SendEmail(cfg: MailConfig, content: string, date: string, transport: SmtpTransport)
    returns (attempted: seq<SmtpStep>, delivery: Delivery)
    ensures attempted <= SessionSteps(cfg, BuildMessage(cfg, content, date))
    ensures forall i :: 0 <= i < |attempted| - 1 ==> transport(i, attempted[i]).Ok?
    ensures delivery == Delivered <==>
      && |attempted| == 4
      && forall i :: 0 <= i < 4 ==> transport(i, attempted[i]).Ok?
    ensures delivery == Delivered ==>
      && attempted[0] == Connect(cfg.server, cfg.port)
      && attempted[2] == Login(cfg.sender, cfg.password)
      && attempted[3] == SendMail(cfg.sender, cfg.recipient, BuildMessage(cfg, content, date))
    ensures delivery.Failed? ==>
      && delivery.at == |attempted| - 1
      && transport(delivery.at, attempted[delivery.at]).Err?
  {
    var steps := SessionSteps(cfg, BuildMessage(cfg, content, date));
    attempted := [];
    delivery := Delivered;
    var k := 0;
    while k < |steps|
      invariant 0 <= k <= |steps|
      invariant attempted == steps[..k]
      invariant forall i :: 0 <= i < k ==> transport(i, steps[i]).Ok?
      decreases |steps| - k
    {
      attempted := attempted + [steps[k]];
      if transport(k, steps[k]).Err? {
        delivery := Failed(k);
        return;
      }
      k := k + 1;
    }
  }
}

=== FILE: Newsletter.dfy ===
/** Newsletter composition (`NewsletterGenerator.create_newsletter`): fetch
    with the default page size, then write a banner, a "Generated on" line
    and one block per article for the first five articles, summarizing
    each of those five exactly once. */
module Newsletter {
  import opened Wrappers
  import opened Articles
  import opened Fetch
  import opened Summarize

  /** The cap on article blocks. The source comment says 10; the slice
      `articles[:5]` says 5, and the code uses 5. */
  const MaxArticles: nat := 5

  /** "🗞️ Your AI Daily News Briefing 🗞️" followed by a blank line; the
      emoji is U+1F5DE with the emoji presentation selector U+FE0F. */
  const Banner: string :=
    "\U{1F5DE}\U{FE0F} Your AI Daily News Briefing \U{1F5DE}\U{FE0F}\n\n"
  const StampLead: string := "Generated on: "
  /** "📰 " (U+1F4F0 and a space), which opens every article block. */
  const BlockLead: string := "\U{1F4F0} "

  function Min(a: nat, b: nat): nat
  {
    if a <= b then a else b
  }

  /** The banner and the timestamp line, which open every newsletter. */
  function Header(timestamp: string): (h: string)
    ensures Banner <= h
    ensures h[|Banner|..] == StampLead + timestamp + "\n\n"
  {
    Banner + StampLead + timestamp + "\n\n"
  }

  /** Reads the timestamp back out of a header; `None` for text that does
      not open with the banner and the stamp lead and close with a blank
      line. */
  function HeaderTimestamp(h: string): (t: Option<string>)
    ensures t.Some? <==> Banner + StampLead <= h && |Banner + StampLead| + 2 <= |h|
                         && h[|h| - 2..] == "\n\n"
    ensures t.Some? ==> h == Banner + StampLead + t.value + "\n\n"
  {
    var lead := Banner + StampLead;
    if lead <= h && |lead| + 2 <= |h| && h[|h| - 2..] == "\n\n" then
      var t := h[|lead|..|h| - 2];
      assert h == h[..|lead|] + t + h[|h| - 2..];
      Some(t)
    else None
  }

  /** The timestamp is recovered from the header exactly. */
  lemma HeaderRoundTrip(timestamp: string)
    ensures HeaderTimestamp(Header(timestamp)) == Some(timestamp)
  {
    var h := Header(timestamp);
    var lead := Banner + StampLead;
    assert h == lead + timestamp + "\n\n";
    assert lead <= h;
    assert h[|h| - 2..] == "\n\n";
    assert h[|lead|..|h| - 2] == timestamp;
  }

  /** Different timestamps give different headers. */
  lemma HeaderInjective(t1: string, t2: string)
    requires Header(t1) == Header(t2)
    ensures t1 == t2
  {
    HeaderRoundTrip(t1);
    HeaderRoundTrip(t2);
  }

  /** The block for one article: marker and title, then the summary, then a
      blank line. */
  function Block(title: string, summary: string): (b: string)
    ensures BlockLead <= b
    ensures |b| == |BlockLead| + |title| + |summary| + 3
    ensures b[|b| - 2..] == "\n\n"
  {
    BlockLead + title + "\n" + summary + "\n\n"
  }

  /** Given the title's length, the title sits right after the marker and
      the summary between the title's newline and the closing blank line. */
  lemma BlockFields(title: string, summary: string)
    ensures var b := Block(title, summary);
            && BlockLead <= b
            && |b| == |BlockLead| + |title| + |summary| + 3
            && b[|BlockLead|..|BlockLead| + |title|] == title
            && b[|BlockLead| + |title|] == '\n'
            && b[|BlockLead| + |title| + 1..|b| - 2] == summary
            && b[|b| - 2..] == "\n\n"
  {
    var b := Block(title, summary);
    assert b == BlockLead + title + "\n" + summary + "\n\n";
  }

  /** Concatenation of a list of strings, in order. */
  function Join(parts: seq<string>): string
  {
    if |parts| == 0 then "" else Join(parts[..|parts| - 1]) + parts[|parts| - 1]
  }

  lemma {:induction false} JoinAppend(a: seq<string>, b: seq<string>)
    ensures Join(a + b) == Join(a) + Join(b)
    decreases |b|
  {
    if |b| == 0 {
      assert a + b == a;
    } else {
      var last := |b| - 1;
      var ab := a + b;
      assert ab[..|ab| - 1] == a + b[..last];
      assert ab[|ab| - 1] == b[last];
      JoinAppend(a, b[..last]);
      calc {
        Join(ab);
        Join(a + b[..last]) + b[last];
        (Join(a) + Join(b[..last])) + b[last];
        Join(a) + (Join(b[..last]) + b[last]);
        Join(a) + Join(b);
      }
    }
  }

  /** A string is a prefix of itself extended. */
  lemma PrefixOfConcat(a: string, b: string)
    ensures a <= a + b
  {
    assert (a + b)[..|a|] == a;
  }

  /** A common lead keeps one string a prefix of another. */
  lemma PrefixUnderLead(h: string, a: string, b: string)
    requires a <= b
    ensures h + a <= h + b
  {
    var rest := b[|a|..];
    assert b == a + rest;
    assert h + b == (h + a) + rest;
    PrefixOfConcat(h + a, rest);
  }

  /** Part `i` of a join sits right after parts `0..i`. */
  lemma JoinPlaces(parts: seq<string>, i: nat)
    requires i < |parts|
    ensures Join(parts[..i]) + parts[i] <= Join(parts)
  {
    var front := parts[..i + 1];
    assert parts == front + parts[i + 1..];
    JoinAppend(front, parts[i + 1..]);
    assert front[..i] == parts[..i];
    assert Join(front) == Join(parts[..i]) + parts[i];
    PrefixOfConcat(Join(front), Join(parts[i + 1..]));
  }

  /** The articles that get a block: the first five, in order. */
  function Shown(articles: seq<Article>): (s: seq<Article>)
    ensures |s| == Min(MaxArticles, |articles|)
    ensures s <= articles
  {
    articles[..Min(MaxArticles, |articles|)]
  }

  /** The block list: block `i` carries article `i`'s title and the summary
      from the `i`-th call to the chat service. */
  function Blocks(shown: seq<Article>, chat: ChatService): (bs: seq<string>)
    ensures |bs| == |shown|
    ensures forall i :: 0 <= i < |shown| ==>
      bs[i] == Block(shown[i].title, Summary(shown[i], i, chat))
  {
    seq(|shown|, i requires 0 <= i < |shown| =>
      Block(shown[i].title, Summary(shown[i], i, chat)))
  }

  /** The article section as the loop builds it: the text so far, extended
      by the block of the next article. */
  function Rendered(shown: seq<Article>, chat: ChatService): string
  {
    if |shown| == 0 then ""
    else
      var n := |shown| - 1;
      Rendered(shown[..n], chat) + Block(shown[n].title, Summary(shown[n], n, chat))
  }

  /** The summarizer requests the loop issues, in order. */
  function Requests(shown: seq<Article>): seq<ChatRequest>
  {
    if |shown| == 0 then []
    else Requests(shown[..|shown| - 1]) + [SummaryRequest(shown[|shown| - 1])]
  }

  lemma RenderedStep(shown: seq<Article>, k: nat, chat: ChatService)
    requires k < |shown|
    ensures Rendered(shown[..k + 1], chat)
         == Rendered(shown[..k], chat) + Block(shown[k].title, Summary(shown[k], k, chat))
  {
    assert shown[..k + 1][..k] == shown[..k];
  }

  lemma RequestsStep(shown: seq<Article>, k: nat)
    requires k < |shown|
    ensures Requests(shown[..k + 1]) == Requests(shown[..k]) + [SummaryRequest(shown[k])]
  {
    assert shown[..k + 1][..k] == shown[..k];
  }

  /** Exactly one request per article, request `i` for article `i`. */
  lemma {:induction false} RequestsAt(shown: seq<Article>)
    ensures |Requests(shown)| == |shown|
    ensures forall i :: 0 <= i < |shown| ==> Requests(shown)[i] == SummaryRequest(shown[i])
    decreases |shown|
  {
    if |shown| > 0 {
      var n := |shown| - 1;
      RequestsAt(shown[..n]);
    }
  }

  /** The article section is the join of the block list: one block per
      article, in order, and nothing else. */
  lemma {:induction false} RenderedIsJoin(shown: seq<Article>, chat: ChatService)
    ensures Rendered(shown, chat) == Join(Blocks(shown, chat))
    decreases |shown|
  {
    if |shown| > 0 {
      var n := |shown| - 1;
      RenderedIsJoin(shown[..n], chat);
      assert Blocks(shown, chat)[..n] == Blocks(shown[..n], chat);
    }
  }

  /** Reference definition of the newsletter text for a fetched article
      list. */
  function Text(articles: seq<Article>, timestamp: string, chat: ChatService): (t: string)
    ensures Header(timestamp) <= t
    ensures |articles| == 0 ==> t == Header(timestamp)
  {
    PrefixOfConcat(Header(timestamp), Rendered(Shown(articles), chat));
    Header(timestamp) + Rendered(Shown(articles), chat)
  }

  /** The composing half of `create_newsletter`: the text, and the
      chat requests issued, in order. */
  method Compose(articles: seq<Article>, timestamp: string, chat: ChatService)
    returns (text: string, prompts: seq<ChatRequest>)
    ensures Header(timestamp) <= text
    ensures |prompts| == Min(MaxArticles, |articles|)
    ensures forall i :: 0 <= i < |prompts| ==> prompts[i] == SummaryRequest(articles[i])
    ensures text == Text(articles, timestamp, chat)
  {
    var shown := articles[..Min(MaxArticles, |articles|)];
    text := Header(timestamp);
    prompts := [];
    for k := 0 to |shown|
      invariant prompts == Requests(shown[..k])
      invariant text == Header(timestamp) + Rendered(shown[..k], chat)
    {
      var article := shown[k];
      var summary := Summary(article, k, chat);
      var block := Block(article.title, summary);
      RenderedStep(shown, k, chat);
      RequestsStep(shown, k);
      AppendAssoc(Header(timestamp), Rendered(shown[..k], chat), block);
      text := text + block;
      prompts := prompts + [SummaryRequest(article)];
    }
    assert shown[..|shown|] == shown;
    RequestsAt(shown);
    PrefixOfConcat(Header(timestamp), Rendered(shown, chat));
  }

  lemma AppendAssoc(a: string, b: string, c: string)
    ensures (a + b) + c == a + (b + c)
  {
  }

  /** `create_newsletter(topics)`: fetch with the default page size, then
      compose. Returns the text with both request logs. */
  method CreateNewsletter(topics: seq<string>, fromDate: string, timestamp: string,
                          search: SearchService, chat: ChatService)
    returns (text: string, searches: seq<SearchRequest>, prompts: seq<ChatRequest>)
    ensures |searches| == |topics|
    ensures forall i :: 0 <= i < |searches| ==>
      searches[i] == RequestFor(topics[i], fromDate, DefaultPageSize)
    ensures var fetched := Collected(Outcomes(topics, fromDate, DefaultPageSize, search));
            && text == Text(fetched, timestamp, chat)
            && |prompts| == Min(MaxArticles, |fetched|)
            && forall i :: 0 <= i < |prompts| ==> prompts[i] == SummaryRequest(fetched[i])
  {
    var articles;
    searches, articles := FetchNews(topics, DefaultPageSize, fromDate, search);
    assert seq(|searches|, i requires 0 <= i < |searches| => search(i, searches[i]))
        == Outcomes(topics, fromDate, DefaultPageSize, search);
    text, prompts := Compose(articles, timestamp, chat);
  }

  /** The newsletter is the header followed by exactly `min(5, |articles|)`
      blocks, block `i` for article `i` (see `Blocks`). */
  lemma TextBlocks(articles: seq<Article>, timestamp: string, chat: ChatService)
    ensures Text(articles, timestamp, chat)
         == Header(timestamp) + Join(Blocks(Shown(articles), chat))
  {
    RenderedIsJoin(Shown(articles), chat);
  }

  /** With no articles the newsletter is the header alone. */
  lemma EmptyNewsletter(timestamp: string, chat: ChatService)
    ensures Text([], timestamp, chat) == Header(timestamp)
  {
    assert Shown([]) == [];
  }

  /** Block `i` appears in the text right after the header and blocks
      `0..i`: the blocks keep article order. */
  lemma BlockInPlace(articles: seq<Article>, timestamp: string, chat: ChatService, i: nat)
    requires i < Min(MaxArticles, |articles|)
    ensures Header(timestamp)
            + Join(Blocks(Shown(articles), chat)[..i])
            + Block(articles[i].title, Summary(articles[i], i, chat))
         <= Text(articles, timestamp, chat)
  {
    var bs := Blocks(Shown(articles), chat);
    TextBlocks(articles, timestamp, chat);
    JoinPlaces(bs, i);
    PrefixUnderLead(Header(timestamp), Join(bs[..i]) + bs[i], Join(bs));
    AppendAssoc(Header(timestamp), Join(bs[..i]), bs[i]);
  }

  /** Articles past the fifth do not affect the text: appending any more
      changes nothing once five are there. */
  lemma TailIgnored(articles: seq<Article>, extra: seq<Article>, timestamp: string,
                    chat: ChatService)
    requires |articles| >= MaxArticles
    ensures Text(articles + extra, timestamp, chat) == Text(articles, timestamp, chat)
  {
    assert Shown(articles + extra) == Shown(articles);
  }

  /** With fewer than five articles every one of them is shown. */
  lemma FewAllShown(articles: seq<Article>)
    requires |articles| < MaxArticles
    ensures Shown(articles) == articles
  {
  }

  /** The text depends on the chat service only through its answers to the
      requests for the shown articles. */
  lemma OnlyShownSummarized(articles: seq<Article>, timestamp: string,
                            chat1: ChatService, chat2: ChatService)
    requires forall i :: 0 <= i < Min(MaxArticles, |articles|) ==>
      chat1(i, SummaryRequest(articles[i])) == chat2(i, SummaryRequest(articles[i]))
    ensures Text(articles, timestamp, chat1) == Text(articles, timestamp, chat2)
  {
    var s := Shown(articles);
    assert forall i :: 0 <= i < |s| ==> s[i] == articles[i];
    assert Blocks(s, chat1) == Blocks(s, chat2);
    TextBlocks(articles, timestamp, chat1);
    TextBlocks(articles, timestamp, chat2);
  }
}

=== FILE: Scenarios.dfy ===
/** End-to-end runs of `create_newsletter` with the external services
    replaced by fixed answers. */
module Scenarios {
  import opened Wrappers
  import opened Articles
  import opened Fetch
  import opened Summarize
  import opened Newsletter

  /** One topic whose search returns two articles, summarized as "S1" and
      "S2": the newsletter is the header, then both titles with their
      summaries, in fetch order. */
  lemma TwoArticlesInOrder(a1: Article, a2: Article, fromDate: string, timestamp: string)
    ensures
      var search: SearchService := (i: nat, req: SearchRequest) => Ok([a1, a2]);
      var chat: ChatService := (i: nat, req: ChatRequest) => if i == 0 then Ok("S1") else Ok("S2");
      Text(Collected(Outcomes(["technology"], fromDate, DefaultPageSize, search)), timestamp, chat)
        == Header(timestamp) + Block(a1.title, "S1") + Block(a2.title, "S2")
  {
    var search: SearchService := (i: nat, req: SearchRequest) => Ok([a1, a2]);
    var chat: ChatService := (i: nat, req: ChatRequest) => if i == 0 then Ok("S1") else Ok("S2");
    var outcomes := Outcomes(["technology"], fromDate, DefaultPageSize, search);
    assert outcomes[..0] == [];
    assert Collected(outcomes) == [a1, a2];
    StripKeepsTrimmed("S1");
    StripKeepsTrimmed("S2");
    var shown := Shown([a1, a2]);
    assert shown == [a1, a2];
    assert shown[..1][..0] == [];
    assert Rendered(shown[..1], chat) == Block(a1.title, "S1");
    assert shown[..1] == [a1];
    assert Rendered(shown, chat) == Block(a1.title, "S1") + Block(a2.title, "S2");
    AppendAssoc(Header(timestamp), Block(a1.title, "S1"), Block(a2.title, "S2"));
  }

  /** Every search fails: the newsletter is the banner and timestamp line
      with no article block. */
  lemma AllSearchesFail(topics: seq<string>, fromDate: string, timestamp: string,
                        search: SearchService, chat: ChatService)
    requires forall i: nat, req: SearchRequest :: search(i, req).Err?
    ensures Text(Collected(Outcomes(topics, fromDate, DefaultPageSize, search)), timestamp, chat)
         == Header(timestamp)
  {
    AllFailedFetchesNothing(Outcomes(topics, fromDate, DefaultPageSize, search));
    EmptyNewsletter(timestamp, chat);
  }

  /** The summarizer fails for every article: each block still names its
      article, with the fallback in place of the summary. */
  lemma AllSummariesFail(articles: seq<Article>, timestamp: string, chat: ChatService)
    requires forall i: nat, req: ChatRequest :: chat(i, req).Err?
    ensures Text(articles, timestamp, chat)
         == Header(timestamp)
            + Join(seq(Min(MaxArticles, |articles|), i requires 0 <= i < Min(MaxArticles, |articles|) =>
                     Block(articles[i].title, Fallback(articles[i].title))))
  {
    TextBlocks(articles, timestamp, chat);
    var shown := Shown(articles);
    assert Blocks(shown, chat)
        == seq(Min(MaxArticles, |articles|), i requires 0 <= i < Min(MaxArticles, |articles|) =>
                 Block(articles[i].title, Fallback(articles[i].title)));
  }
}

=== FILE: Summarize.dfy ===
/** Article summarization (`NewsletterGenerator.summarize_article`): pick
    the article's body, cut it to 1000 characters, ask the chat-completion
    service for a summary, strip the reply; on any failure return a fixed
    fallback that quotes the title. */
module Summarize {
  import opened Wrappers
  import opened Articles

  const ChatModel: string := "gpt-3.5-turbo"
  const SystemInstruction: string :=
    "You are a helpful assistant that summarizes news articles concisely."
  const MaxTokens: int := 150
  /** How many characters of the body are sent. */
  const BodyLimit: nat := 1000
  const PromptLead: string := "Summarize this news article in 3-4 sentences:\n\nTitle: "
  const ContentLabel: string := "\n\nContent: "
  const FallbackLead: string := "Summary unavailable. Original title: "

  /** The arguments of one chat-completion call: model, system message,
      user message and output cap. */
  datatype ChatRequest = ChatRequest(model: string, system: string, user: string, maxTokens: int)

  /** The chat-completion service, as an oracle: its reply to the call with
      number `i` made with request `req`, or the exception it raised. */
  type ChatService = (nat, ChatRequest) -> Result<string>

  /** Python's `o or fallback` for an optional string. */
  function OrElse(o: Option<string>, fallback: string): string
  {
    if Truthy(o) then o.value else fallback
  }

  /** `article['description'] or article['content'] or ''`. */
  function Body(a: Article): (b: string)
    ensures Truthy(a.description) ==> b == a.description.value
    ensures !Truthy(a.description) && Truthy(a.content) ==> b == a.content.value
    ensures b == "" <==> !Truthy(a.description) && !Truthy(a.content)
  {
    OrElse(a.description, OrElse(a.content, ""))
  }

  /** Python's `s[:n]` for `n >= 0`. */
  function Take(s: string, n: nat): (r: string)
    ensures r <= s && |r| <= n
    ensures |s| <= n ==> r == s
    ensures n <= |s| ==> |r| == n
  {
    if |s| <= n then s else s[..n]
  }

  /** The text of the body that is sent to the service. */
  function SentBody(a: Article): (t: string)
    ensures t <= Body(a) && |t| <= BodyLimit
    ensures |Body(a)| <= BodyLimit ==> t == Body(a)
    ensures BodyLimit <= |Body(a)| ==> t == Body(a)[..BodyLimit]
  {
    Take(Body(a), BodyLimit)
  }

  /** The request the summarizer issues for an article. */
  function SummaryRequest(a: Article): (req: ChatRequest)
    ensures req.model == "gpt-3.5-turbo" && req.maxTokens == 150
    ensures req.system == SystemInstruction
    ensures PromptLead <= req.user
    ensures |req.user| == |PromptLead| + |a.title| + |ContentLabel| + |SentBody(a)|
    ensures req.user[|PromptLead|..|PromptLead| + |a.title|] == a.title
    ensures req.user[|PromptLead| + |a.title|..|PromptLead| + |a.title| + |ContentLabel|] == ContentLabel
    ensures req.user[|req.user| - |SentBody(a)|..] == SentBody(a)
    ensures |req.user| <= |PromptLead| + |a.title| + |ContentLabel| + 1000
  {
    ChatRequest(ChatModel, SystemInstruction,
                PromptLead + a.title + ContentLabel + SentBody(a), MaxTokens)
  }

  /** The characters Python's `str.isspace` accepts, which `str.strip()`
      removes. */
  predicate IsSpace(c: char)
  {
    || '\t' <= c <= '\r'
    || '\U{1C}' <= c <= ' '
    || c == '\U{85}' || c == '\U{A0}' || c == '\U{1680}'
    || '\U{2000}' <= c <= '\U{200A}'
    || c == '\U{2028}' || c == '\U{2029}' || c == '\U{202F}'
    || c == '\U{205F}' || c == '\U{3000}'
  }

  /** The index of the first character at or after `i` that is not
      whitespace, or `|s|` if there is none. */
  function SkipSpace(s: string, i: nat): (j: nat)
    requires i <= |s|
    ensures i <= j <= |s|
    ensures forall k :: i <= k < j ==> IsSpace(s[k])
    ensures j == |s| || !IsSpace(s[j])
    decreases |s| - i
  {
    if i < |s| && IsSpace(s[i]) then SkipSpace(s, i + 1) else i
  }

  /** The end of `s[..e]` once the whitespace before `e` and at or after
      `lo` is dropped. */
  function BackSpace(s: string, lo: nat, e: nat): (j: nat)
    requires lo <= e <= |s|
    ensures lo <= j <= e
    ensures forall k :: j <= k < e ==> IsSpace(s[k])
    ensures j == lo || !IsSpace(s[j - 1])
    decreases e
  {
    if lo < e && IsSpace(s[e - 1]) then BackSpace(s, lo, e - 1) else e
  }

  /** `r` occurs in `s` starting at index `lo`. */
  predicate SliceAt(s: string, lo: int, r: string)
  {
    0 <= lo && lo + |r| <= |s| && r == s[lo..lo + |r|]
  }

  /** Independent description of stripping: `r` is the slice of `s` at
      `lo`, everything around it is whitespace, and it neither starts nor
      ends with whitespace. */
  predicate StrippedAt(s: string, lo: int, r: string)
  {
    && SliceAt(s, lo, r)
    && (forall i :: 0 <= i < lo ==> IsSpace(s[i]))
    && (forall i :: lo + |r| <= i < |s| ==> IsSpace(s[i]))
    && (r == [] || (!IsSpace(r[0]) && !IsSpace(r[|r| - 1])))
  }

  /** Python's `s.strip()`: the slice of `s` left when the whitespace at both
      ends is removed. */
  function Strip(s: string): (r: string)
    ensures StrippedAt(s, SkipSpace(s, 0), r)
  {
    var lo := SkipSpace(s, 0);
    var hi := BackSpace(s, lo, |s|);
    var r := s[lo..hi];
    assert r == [] || r[0] == s[lo];
    assert r == [] || r[|r| - 1] == s[hi - 1];
    r
  }

  /** The description fits one string only: whatever `r` satisfies it is
      what `Strip` returns. */
  lemma StripUnique(s: string, lo: int, r: string)
    requires StrippedAt(s, lo, r)
    ensures r == Strip(s)
  {
    var t := Strip(s);
    var lo1 := SkipSpace(s, 0);
    if |r| > 0 && |t| > 0 {
      assert r[0] == s[lo] && t[0] == s[lo1];
      assert lo == lo1;
      assert r[|r| - 1] == s[lo + |r| - 1] && t[|t| - 1] == s[lo1 + |t| - 1];
      assert |r| == |t|;
    }
  }

  /** Stripping a string with no whitespace at either end changes nothing. */
  lemma StripKeepsTrimmed(s: string)
    requires s == [] || (!IsSpace(s[0]) && !IsSpace(s[|s| - 1]))
    ensures Strip(s) == s
  {
    StripUnique(s, 0, s);
  }

  /** Stripping twice is stripping once. */
  lemma StripIdempotent(s: string)
    ensures Strip(Strip(s)) == Strip(s)
  {
    StripKeepsTrimmed(Strip(s));
  }

  /** The fallback summary for an article whose summarization failed. */
  function Fallback(title: string): (r: string)
    ensures |r| == |FallbackLead| + |title|
    ensures r[|FallbackLead|..] == title
  {
    FallbackLead + title
  }

  /** Reads the title back out of a fallback summary; `None` for any text
      that is not one. */
  function FallbackTitle(s: string): (t: Option<string>)
    ensures t.Some? <==> FallbackLead <= s
    ensures t.Some? ==> s == FallbackLead + t.value
  {
    if FallbackLead <= s then Some(s[|FallbackLead|..]) else None
  }

  /** The fallback quotes the title verbatim and nothing else varies: the
      title is recovered exactly. */
  lemma FallbackRoundTrip(title: string)
    ensures FallbackTitle(Fallback(title)) == Some(title)
  {
    assert FallbackLead <= Fallback(title);
  }

  /** Distinct titles give distinct fallbacks. */
  lemma FallbackInjective(t1: string, t2: string)
    requires Fallback(t1) == Fallback(t2)
    ensures t1 == t2
  {
    FallbackRoundTrip(t1);
    FallbackRoundTrip(t2);
  }

  /** `summarize_article(article)` as the `i`-th call to the service. It has
      no precondition and no error result: a failing call yields the
      fallback. */
  function Summary(a: Article, i: nat, chat: ChatService): (r: string)
    ensures chat(i, SummaryRequest(a)).Err? ==> FallbackTitle(r) == Some(a.title)
    ensures chat(i, SummaryRequest(a)).Ok? ==>
      exists lo :: StrippedAt(chat(i, SummaryRequest(a)).value, lo, r)
  {
    match chat(i, SummaryRequest(a))
    case Ok(reply) =>
      Strip(reply)
    case Err(_) =>
      FallbackRoundTrip(a.title);
      Fallback(a.title)
  }
}

=== FILE: Wrappers.dfy ===
/** Option and Result, the two shapes the newsletter pipeline needs:
    Option for the article fields NewsAPI may send as null, and Result for
    the outcome of a call to an external service, which either answers or
    raises. */
module Wrappers {

  /** A value that may be absent (Python's `None`). */
  datatype Option<+T> = None | Some(value: T)

  /** The outcome of one call to an external service. `Err` stands for any
      exception the client library raises; its message is only ever logged. */
  datatype Result<+T> = Ok(value: T) | Err(message: string)
}
